=== FILE: README.md ===
# EduSphere ERP front end — a Dafny model of its decision logic

EduSphere is a React mock-up of a school and college ERP. The program logic lives inside its
page components and one service module. This project models that logic as pure Dafny
functions over explicit state and proves what the pages promise about it:

- **The column negotiator** (`generateReportSchema`) sits behind the "Smart Reports" page. It
  falls back to the current columns whenever the generative service throws, answers with no
  text, or answers with text `JSON.parse` rejects; otherwise it adopts the parsed array verbatim.
  Locating the API key and the `analyzeRequirements` fallback are modelled as well.
- **The reports page**:
  - the fifteen generated mock students and the field catalog;
  - the prompt handler as a state transition;
  - the camelCase-to-header transform `col.replace(/([A-Z])/g, ' $1').trim()`;
  - the red and green rules of the fee and attendance cells.
- **The admission wizard**: a step counter clamped to 1..3 by the Back and Next buttons, plus
  the predicates the page derives from it.
- **The configuration page**: the initial feature flags and the toggle that flips one flag.
- **Role-based access**: the route table with its role guards, the sidebar entries each role
  sees, the exact-match highlight test and the role selector.

Modules follow the source layout:

| module | file |
|---|---|
| `Types` | `types.dfy` |
| `Text` | `text.dfy` (decimal numerals and JavaScript `trim`) |
| `GeminiService` | `gemini_service.dfy` |
| `DynamicReports` | `dynamic_reports.dfy` |
| `Admissions` | `admissions.dfy` |
| `AdminConfig` | `admin_config.dfy` |
| `Layout` | `layout.dfy` |
| `App` | `app.dfy` |

The generative service is never modelled. What one call produced is an input:

- `ServiceThrew`, or
- `ServiceReturned(text)`, where `text` may be absent.

`JSON.parse` is an input too: a function from the response text to `ParseThrew` or
`ParsedArray(items)`. The two environment lookups behind the API key are inputs of the same
kind: the read threw, or it found an optional value.

The negotiator (services/geminiService.ts:66-68) returns `JSON.parse(text)` as it is:

- it does not filter the answer against the catalog of available fields;
- it does not remove duplicate names;
- it does not fall back to the current columns when the answer is an empty array.

The model does the same. Three lemmas state this outright: `NegotiationIgnoresCatalog`,
`NegotiationAdoptsUnknownAndDuplicateNames` and `NegotiationAdoptsEmptyAnswer`.

## Model

| member | source | states |
|---|---|---|
| Types.AllRolesComplete | types.ts:1-8 | Every role is in the six-entry role list, and the list has no repeats |
| Types.RoleDisplayRoundTrip | types.ts:1-8 | Distinct roles have distinct display strings, and reading a role's display string back gives that role |
| Types.RoleFromDisplay | components/Layout.tsx:83 | A selector value that is read back as a role is exactly that role's display string |
| Types.StudentFieldsComplete | types.ts:16-31 | The student record has exactly fourteen distinct fields; every field is listed; each property name resolves back to its field; distinct fields have distinct names |
| Types.FieldOf | types.ts:16-31 | A name that resolves to a field is that field's property name |
| Types.Cell | pages/DynamicReports.tsx:141 | `student[col]` is absent exactly when no field carries the name `col`, and otherwise it is the value of the field with that name |
| Types.ScopeIsOneOfThree | types.ts:47 | A flag's scope is one of "GLOBAL", "ROLE" and "DEPT", and the three are distinct |
| Text.Decimal | pages/DynamicReports.tsx:8 | A numeral is a non-empty string of digits whose length is 1 to 4 for numbers below 10, 100, 1000 and 10000 respectively |
| Text.DecimalRoundTrip | pages/DynamicReports.tsx:8 | Reading back the numeral written for `n` gives `n` |
| Text.DecimalInjective | pages/DynamicReports.tsx:8 | Different numbers are written as different numerals |
| Text.DecimalNoLeadingZero | pages/DynamicReports.tsx:8 | A numeral of two or more digits never starts with "0" |
| Text.LeadingZero | pages/DynamicReports.tsx:17 | A leading "0" does not change the value a digit string denotes |
| Text.Trim | pages/DynamicReports.tsx:115 | `trim` cuts the string into a whitespace prefix, the result and a whitespace suffix, so it never lengthens a string; its result has no whitespace at either end; a string without whitespace at its ends is kept whole; an all-whitespace string trims to the empty string |
| Text.TrimSlice | pages/DynamicReports.tsx:115 | `trim` returns exactly the slice between the leading and the trailing whitespace runs; it drops only whitespace from both ends, and what it keeps neither starts nor ends with whitespace |
| Text.TrimUnpadded | pages/DynamicReports.tsx:115 | `trim` leaves a string alone when the string neither starts nor ends with whitespace |
| GeminiService.GetApiKey | services/geminiService.ts:4-18 | The key is the process value, or `''` when that value is absent or empty; if reading the process environment throws, the same applies to the window environment; if both throw, the key is `''`; no path throws |
| GeminiService.OrEmpty | services/geminiService.ts:9-13 | The empty-string default applied to an optional value: a present value is kept as it is (the empty string included), an absent one becomes the empty string |
| GeminiService.ApiKeyProvenance | services/geminiService.ts:4-18 | The key is either empty or a value one of the two environment locations actually held, and the window's only when the process lookup threw |
| GeminiService.ClientKey | services/geminiService.ts:20-24 | The client key is never empty: it is the API key when non-empty, otherwise "MISSING_KEY" |
| GeminiService.GenerateReportSchema | services/geminiService.ts:49-74 | The result is the current columns when the call throws, when the text is missing or empty, or when parsing throws; otherwise it is the parsed array |
| GeminiService.NegotiationTotal | services/geminiService.ts:49-74 | Every path returns a column list: the current columns, or a parsed array obtained from non-empty text |
| GeminiService.NegotiationIgnoresCatalog | services/geminiService.ts:66-68 | For a given service answer, the result does not depend on the catalog: no entry is filtered against it (the catalog only shapes the request the service sees) |
| GeminiService.NegotiationAdoptsUnknownAndDuplicateNames | services/geminiService.ts:68 | An answer that repeats a name and names a field outside the catalog is adopted as it is |
| GeminiService.NegotiationAdoptsEmptyAnswer | services/geminiService.ts:68 | An answer that parses to the empty array empties the column list; there is no fallback for an empty result |
| GeminiService.AnalyzeRequirements | services/geminiService.ts:78-93 | A thrown call yields "Unable to analyze requirements at this time."; otherwise the response text is returned as it is, absent or not |
| DynamicReports.MockStudent | pages/DynamicReports.tsx:7-22 | Row `i` has roll number `101 + i`; it owes 5000 exactly when `i` is a multiple of three and 0 otherwise; its attendance lies in 75..94; its names, division, standard and category come from the fixed pools; its id starts with "STU-" |
| DynamicReports.MockRow | pages/DynamicReports.tsx:7-22 | The mock table has fifteen rows, and row `i` is the row generated from index `i` |
| DynamicReports.MockIdentity | pages/DynamicReports.tsx:7-13 | Row ids are "STU-" followed by the numeral of `1000 + i` and are eight characters long; roll numbers are `101 + i`; both are pairwise distinct |
| DynamicReports.RowId | pages/DynamicReports.tsx:8 | After its four-character prefix, a row id is the numeral of `1000 + i`, and the id is eight characters long |
| DynamicReports.MockPhones | pages/DynamicReports.tsx:17 | Every parent phone is ten digits: "98765432" and then two digits that read back as the row index; no two rows share a phone |
| DynamicReports.PhoneShape | pages/DynamicReports.tsx:17 | For an index below 100 the phone is ten digits, starts with "98765432", and ends with two digits reading back as the index |
| DynamicReports.SuffixValue | pages/DynamicReports.tsx:17 | The zero-padded suffix of an index below 100 has two digits and reads back as the index |
| DynamicReports.MockFees | pages/DynamicReports.tsx:14 | A row owes 5000 when its index is a multiple of three and 0 otherwise, so its fee cell is red exactly for those rows |
| DynamicReports.MockAttendance | pages/DynamicReports.tsx:15 | Mock attendance lies in 75..89, so no mock attendance bar is red |
| DynamicReports.RowAttendance | pages/DynamicReports.tsx:15 | Within the fifteen rows, attendance is `75 + i`, because `i % 20` is `i` there |
| DynamicReports.CatalogMatchesStudent | pages/DynamicReports.tsx:25-32 | The catalog has fourteen distinct names, exactly the record's property names in declaration order, and the initial visible columns are drawn from it |
| DynamicReports.ReportColumnKeyIsField | types.ts:33-37 | A report column's key is a catalog name, and looking it up on any student yields that student's value of the field |
| DynamicReports.Pending | pages/DynamicReports.tsx:39-40 | While the call is in flight both flags are set, and the columns and the prompt are as before |
| DynamicReports.HandleAIPrompt | pages/DynamicReports.tsx:37-49 | An empty prompt changes nothing; otherwise the columns become the negotiator's answer, the prompt is cleared and both flags drop |
| DynamicReports.FailedPromptKeepsColumns | pages/DynamicReports.tsx:37-49 | A call that throws, answers with empty text or answers with unparsable text leaves the columns unchanged, and the prompt is still consumed |
| DynamicReports.InitialReportPage | pages/DynamicReports.tsx:32-35 | The page opens idle, on four catalog columns, with an empty prompt; pressing the button before typing anything changes nothing, whatever the service would answer |
| DynamicReports.HandleAIPromptSettles | pages/DynamicReports.tsx:37-49 | Handling twice is the same as handling once, whatever the second call would have answered |
| DynamicReports.UpdateButtonLabel | pages/DynamicReports.tsx:88 | The caption is "Processing..." or "Update Report", and "Processing..." exactly while `isLoading` holds |
| DynamicReports.UpdateButtonFollowsLoading | pages/DynamicReports.tsx:88 | The button reads "Processing..." while a call is in flight and "Update Report" once the handler finishes |
| DynamicReports.SpaceBeforeCapitals | pages/DynamicReports.tsx:115 | The replacement lengthens the string by exactly one character per ASCII capital; it adds nothing but spaces; every capital in its output has a space just before it |
| DynamicReports.SpacingOfChar | pages/DynamicReports.tsx:115 | On one character the replacement gives a space and the capital for a capital, and the character itself otherwise |
| DynamicReports.HeaderLabel | pages/DynamicReports.tsx:115 | A header label is at most one character per capital longer than the identifier; it neither starts nor ends with whitespace; every capital after its first character follows a space |
| DynamicReports.RemoveSpacesUndoesSpacing | pages/DynamicReports.tsx:115 | Deleting spaces after the replacement gives the same result as deleting them from the original |
| DynamicReports.HeaderLabelRoundTrip | pages/DynamicReports.tsx:115 | Deleting the spaces of the header label of a whitespace-free identifier gives back the identifier |
| DynamicReports.HeaderLabelLength | pages/DynamicReports.tsx:115 | For a whitespace-free identifier that does not start with a capital, the label is the full spaced form: exactly one character longer per capital, nothing trimmed |
| DynamicReports.HeaderLabelOfCapitalised | pages/DynamicReports.tsx:115 | For a whitespace-free identifier that starts with a capital, the label is the spaced form minus the one space put before that first capital (`ID` gives `I D`) |
| DynamicReports.TrimmedBlanks | pages/DynamicReports.tsx:115 | For a whitespace-free identifier, what trimming drops from its spaced form is plain spaces |
| DynamicReports.SpacingWithoutCapitals | pages/DynamicReports.tsx:115 | The replacement leaves a string without capitals unchanged |
| DynamicReports.HeaderLabelOfLowercase | pages/DynamicReports.tsx:115 | An identifier without capitals and without surrounding whitespace (`id`, `dob`, `address`) is its own header label |
| DynamicReports.SpacingAppend | pages/DynamicReports.tsx:115 | The replacement distributes over concatenation |
| DynamicReports.HeaderLabelOfTwoWords | pages/DynamicReports.tsx:115 | A lowercase word followed by a capitalised word (`firstName`, `feeBalance`) is labelled with one space between them |
| DynamicReports.FeeTone | pages/DynamicReports.tsx:127 | The fee cell is red exactly when the balance is positive, and green exactly when it is zero or below |
| DynamicReports.AttendanceTone | pages/DynamicReports.tsx:134 | The attendance bar is red exactly below 75 percent, and green from 75 up |
| DynamicReports.ToneThresholds | pages/DynamicReports.tsx:126-134 | At the boundaries: a balance of 1 is red and 0 green; attendance of 74 is red and 75 green |
| Admissions.Back | pages/Admissions.tsx:113 | Back never goes below 1, steps back by one above 1, and stays at 1 otherwise |
| Admissions.Next | pages/Admissions.tsx:120 | Next never goes above 3, steps forward by one below 3, and stays at 3 otherwise |
| Admissions.StepsStayInRange | pages/Admissions.tsx:113-120 | Both buttons keep a valid step within 1..3 and move it by at most one |
| Admissions.ClampedAtEnds | pages/Admissions.tsx:5-120 | The wizard opens on step 1, a valid step; Next on the last step and Back on the initial step change nothing |
| Admissions.NextBackRoundTrip | pages/Admissions.tsx:113-120 | Next then Back restores steps 1 and 2, Back then Next restores steps 2 and 3, and Next then Back from step 3 gives step 2 |
| Admissions.RunStaysInRange | pages/Admissions.tsx:5-120 | Any sequence of presses from a valid step, the initial one included, ends on a valid step |
| Admissions.EveryStepReachable | pages/Admissions.tsx:120 | Step `k` is reached from the initial step by `k - 1` presses of Next |
| Admissions.BackDisabled | pages/Admissions.tsx:114 | On a valid step, Back is disabled exactly when pressing it would leave the step unchanged |
| Admissions.PrimaryLabel | pages/Admissions.tsx:123 | The caption is "Submit Application" or "Next Step"; on a valid step it is "Submit Application" exactly when Next would leave the step unchanged |
| Admissions.Highlighted | pages/Admissions.tsx:18-28 | On a valid step, a lit dot stays lit after Next; Back turns off at most the dot of the step being left; an unlit dot stays unlit after Back |
| Admissions.VisiblePanels | pages/Admissions.tsx:34-108 | Each valid step shows exactly one panel: personal details on step 1, academic information on step 2, documents on step 3; no panel shows outside 1..3 |
| Admissions.StepPresentation | pages/Admissions.tsx:18-123 | Exactly one panel shows; Back is disabled exactly when it would do nothing; the caption reads "Submit Application" exactly when Next would do nothing and "Next Step" otherwise; dot `k` is lit exactly when `k <= step` |
| AdminConfig.ToggleFeature | pages/AdminConfig.tsx:41-45 | Length and order are kept; flags with other ids are unchanged; flags with the id have their switch negated; nothing else on any flag changes |
| AdminConfig.ToggleTwice | pages/AdminConfig.tsx:42-44 | Toggling the same id twice restores the list |
| AdminConfig.ToggleAbsent | pages/AdminConfig.tsx:42-44 | Toggling an id no flag carries changes nothing |
| AdminConfig.TogglesCommute | pages/AdminConfig.tsx:42-44 | Toggles of two ids give the same list in either order |
| AdminConfig.InitialFeaturesFacts | pages/AdminConfig.tsx:6-39 | The page starts with four global flags with ids "1" to "4", of which only "2" is disabled |
| AdminConfig.ToggleInitialFeatures | pages/AdminConfig.tsx:6-45 | Toggling "2" on the initial list enables every flag; toggling "5" changes nothing |
| Layout.SidebarItems | components/Layout.tsx:55-75 | Dashboard comes first and System Blueprint last for every role; the five management entries show exactly for non-students; "My Portal" shows exactly for students; the management entries come in their declared order right after Dashboard, and for a student "My Portal" sits right after Dashboard |
| Layout.OneRoleGroup | components/Layout.tsx:58-70 | Exactly one of the management block and the portal entry is shown |
| Layout.IsActive | components/Layout.tsx:25 | An entry is highlighted exactly when the location has the same length as its path and agrees with it character by character |
| Layout.AtMostOneActive | components/Layout.tsx:25 | No two sidebar entries are highlighted at once, and an entry is highlighted only on its own path |
| Layout.ActiveIsExact | components/Layout.tsx:25 | An entry is highlighted on its own path and not on that path with a trailing slash |
| Layout.RoleSelectorOffersEveryRole | components/Layout.tsx:86-88 | The selector offers six distinct options, one per role, and choosing option `i` selects role `i` |
| App.Route | App.tsx:26-62 | "/admissions" shows the page exactly for non-students and the admissions denial to students; "/reports" shows the page exactly for non-students and redirects students to "/student-portal"; "/admin-config" shows the page exactly for Super Admin and Principal and the privilege denial to everyone else; the portal and blueprint routes are unguarded; every other location shows the dashboard |
| App.DashboardForEveryRole | App.tsx:27-61 | "/" and every unmatched location show the dashboard for the current role |
| App.UnguardedRoutes | App.tsx:57-58 | The portal and blueprint routes render the same screen for every role |
| App.RedirectLandsOnPortal | App.tsx:39-46 | Following the students' redirect from "/reports" lands on the portal in one step |
| App.StudentSeesNoStaffScreen | App.tsx:29-55 | A student reaches neither admissions, reports nor configuration at any location |
| App.InitialRoleUnrestricted | App.tsx:21-55 | The initial role, Principal, is never denied and never redirected |
| App.SidebarOffersUnroutedEntries | App.tsx:48-61 | A head of department is offered the configuration entry but denied it, and the Academics and User Mgmt entries fall through to the dashboard |

## Left out

- **The service call:**
  - the SDK call, the network, the model name, the response schema and `console.error` are not modelled;
  - the outcome of one call is an input;
  - the system-instruction text and how the model reads a vague request are not modelled, because both are opaque and nondeterministic.
- **JSON parsing:**
  - `JSON.parse` is an input that either throws or yields an array of strings;
  - a response that parses to something other than an array of strings is not modelled.
- **Environment lookups:** the mechanics of `process.env` and `window.process.env` are reduced to "threw" or "found an optional value".
- **Concurrency:** `async`, `await` and interleavings are not modelled. A second prompt submitted while a call is in flight is not modelled either. `HandleAIPrompt` is the handler run to completion; `Pending` is its intermediate state.
- **Rendering:** JSX rendering, styling, icons, hooks and re-rendering are not modelled. React state updates are pure transitions. The CSS `uppercase` applied to header labels is not modelled.
- **Routing:** `App.Route` matches the location exactly. React Router's case-insensitive matching and its trailing-slash tolerance are not modelled.
- **Strings:** strings are sequences of Unicode scalar values. JavaScript's UTF-16 code units are not modelled; the header transform and `trim` only look at ASCII capitals and whitespace code points, so this does not change them for any identifier in the catalog.
- **Numbers:** TypeScript numbers are modelled as unbounded integers. Every number the pages compute is a small integer.
- **Property lookup:** `Types.Cell` treats `student[col]` for an unknown name as absent. Inherited property names such as `constructor` are not modelled.
- pages/Dashboard.tsx is not part of this model: it holds hard-coded chart data with no logic beyond a display colour.
- pages/SystemArchitecture.tsx is not part of this model: it is static documentation, and nothing enforces its permission matrix.
- **Unused types:** `OrganizationType`, `FeeHead`, `LearningPlan` and `LabBatch` in types.ts are declared but never used by the pages.
- **Optional roles:** `FeatureFlag.affectedRoles` is optional and modelled as an `Option`. No code reads it, so no property is stated about it.

=== FILE: admin_config.dfy ===
/**
 The configuration page: the initial list of feature flags and the toggle
 that flips the `isEnabled` switch of the flags carrying a given id.
 */
module AdminConfig {
  import opened Types

  /** The four flags the page starts with. */
  const InitialFeatures: seq<FeatureFlag> := [
    FeatureFlag("1", "learning_plan_approval", "Learning Plan HOD Approval",
      "If enabled, learning plans created by teachers require HOD approval before becoming active.",
      true, Global, None),
    FeatureFlag("2", "strict_attendance_exams", "Strict Attendance for Exam Hall Ticket",
      "Automatically block Hall Ticket generation if attendance < 75%.",
      false, Global, None),
    FeatureFlag("3", "online_admission", "Online Admission Portal",
      "Open the admission portal for public access.",
      true, Global, None),
    FeatureFlag("4", "sms_notifications", "SMS Gateways (Cost Warning)",
      "Send SMS for absence. Disabling this will fallback to App Notifications/Email only.",
      true, Global, None)
  ]

  /** Two flags agree on everything but the switch. */
  predicate SameExceptSwitch(f: FeatureFlag, g: FeatureFlag)
  {
    f.(isEnabled := g.isEnabled) == g
  }

  /** One element of the `map`: a matching flag gets its switch negated. */
  function ToggleOne(f: FeatureFlag, id: string): FeatureFlag
  {
    if f.id == id then f.(isEnabled := !f.isEnabled) else f
  }

  /** `toggleFeature(id)` applied to the current list. */
  function ToggleFeature(flags: seq<FeatureFlag>, id: string): (r: seq<FeatureFlag>)
    ensures |r| == |flags|
    ensures forall i :: 0 <= i < |flags| && flags[i].id != id ==> r[i] == flags[i]
    ensures forall i :: 0 <= i < |flags| && flags[i].id == id ==> r[i].isEnabled == !flags[i].isEnabled
    ensures forall i :: 0 <= i < |flags| ==> SameExceptSwitch(flags[i], r[i])
  {
    if flags == [] then []
    else [ToggleOne(flags[0], id)] + ToggleFeature(flags[1..], id)
  }

  /** Toggling the same id twice restores the list. */
  lemma {:induction false} ToggleTwice(flags: seq<FeatureFlag>, id: string)
    ensures ToggleFeature(ToggleFeature(flags, id), id) == flags
  {
    if flags != [] {
      var once := ToggleFeature(flags, id);
      assert once[1..] == ToggleFeature(flags[1..], id);
      ToggleTwice(flags[1..], id);
    }
  }

  /** Toggling an id no flag carries changes nothing. */
  lemma {:induction false} ToggleAbsent(flags: seq<FeatureFlag>, id: string)
    requires forall i :: 0 <= i < |flags| ==> flags[i].id != id
    ensures ToggleFeature(flags, id) == flags
  {
    if flags != [] {
      ToggleAbsent(flags[1..], id);
    }
  }

  /** Toggles of two ids can be applied in either order. */
  lemma {:induction false} TogglesCommute(flags: seq<FeatureFlag>, a: string, b: string)
    ensures ToggleFeature(ToggleFeature(flags, a), b) == ToggleFeature(ToggleFeature(flags, b), a)
  {
    if flags != [] {
      assert ToggleFeature(flags, a)[1..] == ToggleFeature(flags[1..], a);
      assert ToggleFeature(flags, b)[1..] == ToggleFeature(flags[1..], b);
      TogglesCommute(flags[1..], a, b);
    }
  }

  /** The initial flags carry ids "1" to "4", are all global, and only "2" starts disabled. */
  lemma InitialFeaturesFacts()
    ensures |InitialFeatures| == 4
    ensures forall i :: 0 <= i < 4 ==> InitialFeatures[i].id == ["1", "2", "3", "4"][i]
    ensures forall i :: 0 <= i < 4 ==> InitialFeatures[i].scope == Global
    ensures forall i :: 0 <= i < 4 ==> InitialFeatures[i].isEnabled == (i != 1)
  {
  }

  /** Toggling "2" on the initial list enables every flag; toggling "5" changes nothing. */
  lemma ToggleInitialFeatures()
    ensures forall i :: 0 <= i < 4 ==> ToggleFeature(InitialFeatures, "2")[i].isEnabled
    ensures ToggleFeature(InitialFeatures, "5") == InitialFeatures
  {
    InitialFeaturesFacts();
    var ids := ["1", "2", "3", "4"];
    var toggled := ToggleFeature(InitialFeatures, "2");
    forall i | 0 <= i < 4 ensures toggled[i].isEnabled {
      assert InitialFeatures[i].id == ids[i];
      if i == 1 {
        assert toggled[i].isEnabled == !InitialFeatures[i].isEnabled;
      } else {
        assert ids[i] != "2";
        assert toggled[i] == InitialFeatures[i];
      }
    }
    forall i | 0 <= i < |InitialFeatures| ensures InitialFeatures[i].id != "5" {
      assert InitialFeatures[i].id == ids[i];
    }
    ToggleAbsent(InitialFeatures, "5");
  }
}

=== FILE: admissions.dfy ===
/**
 The admission wizard: a step counter starting at 1 that the Back and Next
 buttons move within 1..3, and the predicates the page derives from it
 (which panel shows, which progress dots are lit, whether Back is disabled,
 what the primary button says).
 */
module Admissions {

  const InitialStep: int := 1
  const LastStep: int := 3

  predicate ValidStep(s: int)
  {
    1 <= s <= LastStep
  }

  /** The Back button: `Math.max(1, s - 1)`. */
  function Back(s: int): (r: int)
    ensures r >= 1
    ensures s > 1 ==> r == s - 1
    ensures s <= 1 ==> r == 1
  {
    if s - 1 < 1 then 1 else s - 1
  }

  /** The Next button: `Math.min(3, s + 1)`. */
  function Next(s: int): (r: int)
    ensures r <= LastStep
    ensures s < LastStep ==> r == s + 1
    ensures s >= LastStep ==> r == LastStep
  {
    if s + 1 > LastStep then LastStep else s + 1
  }

  /** Both buttons keep a valid step valid, and each moves it by at most one. */
  lemma StepsStayInRange(s: int)
    requires ValidStep(s)
    ensures ValidStep(Back(s)) && ValidStep(Next(s))
    ensures s - 1 <= Back(s) <= s && s <= Next(s) <= s + 1
  {
  }

  /** The wizard opens on a valid step; Next on the last step and Back on the first are no-ops. */
  lemma ClampedAtEnds()
    ensures ValidStep(InitialStep)
    ensures Next(LastStep) == LastStep
    ensures Back(InitialStep) == InitialStep
  {
  }

  /** Next then Back returns to steps 1 and 2; Back then Next returns to steps 2 and 3. */
  lemma NextBackRoundTrip(s: int)
    requires ValidStep(s)
    ensures s < LastStep ==> Back(Next(s)) == s
    ensures s > InitialStep ==> Next(Back(s)) == s
    ensures s == LastStep ==> Back(Next(s)) == s - 1
  {
  }

  datatype WizardButton = BackButton | NextButton

  function Press(s: int, b: WizardButton): int
  {
    match b
    case BackButton => Back(s)
    case NextButton => Next(s)
  }

  /** The step after a sequence of button presses. */
  function Run(s: int, presses: seq<WizardButton>): int
    decreases |presses|
  {
    if presses == [] then s else Run(Press(s, presses[0]), presses[1..])
  }

  /** Whatever buttons are pressed, starting from the initial step the wizard stays in 1..3. */
  lemma {:induction false} RunStaysInRange(s: int, presses: seq<WizardButton>)
    requires ValidStep(s)
    ensures ValidStep(Run(s, presses))
    decreases |presses|
  {
    if presses != [] {
      StepsStayInRange(s);
      RunStaysInRange(Press(s, presses[0]), presses[1..]);
    }
  }

  /** Every step is reached from the initial one by pressing Next `k - 1` times. */
  lemma EveryStepReachable(k: int)
    requires ValidStep(k)
    ensures Run(InitialStep, seq(k - 1, _ => NextButton)) == k
  {
    if k == 2 {
      assert seq(1, _ => NextButton) == [NextButton];
    } else if k == 3 {
      assert seq(2, _ => NextButton) == [NextButton, NextButton];
      assert [NextButton, NextButton][1..] == [NextButton];
    } else {
      assert seq(0, _ => NextButton) == [];
    }
  }

  /** Back is disabled on the first step only: exactly where pressing it would do nothing. */
  function BackDisabled(s: int): (b: bool)
    ensures ValidStep(s) ==> (b <==> Back(s) == s)
  {
    s == 1
  }

  /** The primary button caption: one of two texts, and "Submit Application" exactly where
      Next no longer advances. */
  function PrimaryLabel(s: int): (l: string)
    ensures l == "Submit Application" || l == "Next Step"
    ensures ValidStep(s) ==> (l == "Submit Application" <==> Next(s) == s)
  {
    if s == 3 then "Submit Application" else "Next Step"
  }

  /** Progress dot `k` is lit: on a valid step, a lit dot stays lit under Next, Back turns
      off at most the dot of the step being left, and an unlit dot stays unlit under Back. */
  function Highlighted(s: int, k: int): (b: bool)
    ensures ValidStep(s) && b ==> Next(s) >= k
    ensures ValidStep(s) && b && k != s ==> Back(s) >= k
    ensures ValidStep(s) && !b ==> Back(s) < k
  {
    s >= k
  }

  datatype Panel = PersonalDetails | AcademicInfo | Documents

  /** The form panels the page renders for a step: one per valid step, the personal details
      on the first, the documents on the last, and none outside 1..3. */
  function VisiblePanels(s: int): (p: set<Panel>)
    ensures ValidStep(s) ==> |p| == 1
    ensures !ValidStep(s) ==> p == {}
    ensures PersonalDetails in p <==> s == InitialStep
    ensures AcademicInfo in p <==> s == 2
    ensures Documents in p <==> s == LastStep
  {
    (if s == 1 then {PersonalDetails} else {})
    + (if s == 2 then {AcademicInfo} else {})
    + (if s == 3 then {Documents} else {})
  }

  /** On every valid step exactly one panel shows; the Back button is disabled exactly
      when it would do nothing; the caption says "Submit Application" exactly when Next
      no longer advances; and the lit dots are exactly those up to the current step. */
  lemma StepPresentation(s: int, k: int)
    requires ValidStep(s) && ValidStep(k)
    ensures |VisiblePanels(s)| == 1
    ensures BackDisabled(s) <==> Back(s) == s
    ensures PrimaryLabel(s) == "Submit Application" <==> Next(s) == s
    ensures PrimaryLabel(s) != "Submit Application" ==> PrimaryLabel(s) == "Next Step"
    ensures Highlighted(s, k) <==> k <= s
    ensures Highlighted(s, 1)
  {
  }
}

=== FILE: app.dfy ===
/**
 The route table with its role guards. The role is the simulated one held by
 the application; routing matches the location against each route path.
 */
module App {
  import opened Types
  import Layout

  /** What a route renders. */
  datatype Screen =
    | DashboardScreen(role: UserRole)
    | AdmissionsScreen
    | ReportsScreen
    | AdminConfigScreen
    | StudentPortalScreen
    | ArchitectureScreen
    | AccessDenied(message: string)
    | Redirect(to: string)

  /** The role the application starts with. */
  const InitialRole: UserRole := Principal

  const AdmissionsDenied: string := "Access Denied: Students cannot manage admissions."
  const AdminConfigDenied: string := "Access Denied: Requires Principal or Super Admin privileges."

  /** The screen for a location under a role; unmatched locations fall through to the dashboard. */
  function Route(path: string, role: UserRole): (s: Screen)
    ensures path == "/admissions" ==>
              (s == AdmissionsScreen <==> !role.Student?)
              && (role.Student? ==> s == AccessDenied(AdmissionsDenied))
    ensures path == "/reports" ==>
              (s == ReportsScreen <==> !role.Student?)
              && (role.Student? ==> s == Redirect("/student-portal"))
    ensures path == "/admin-config" ==>
              (s == AdminConfigScreen <==> role in {SuperAdmin, Principal})
              && (role !in {SuperAdmin, Principal} ==> s == AccessDenied(AdminConfigDenied))
    ensures path == "/student-portal" ==> s == StudentPortalScreen
    ensures path == "/architecture" ==> s == ArchitectureScreen
    ensures path !in {"/admissions", "/reports", "/admin-config", "/student-portal", "/architecture"} ==>
              s == DashboardScreen(role)
  {
    if path == "/" then DashboardScreen(role)
    else if path == "/admissions" then
      (if !role.Student? then AdmissionsScreen else AccessDenied(AdmissionsDenied))
    else if path == "/reports" then
      (if !role.Student? then ReportsScreen else Redirect("/student-portal"))
    else if path == "/admin-config" then
      (if role == SuperAdmin || role == Principal then AdminConfigScreen else AccessDenied(AdminConfigDenied))
    else if path == "/student-portal" then StudentPortalScreen
    else if path == "/architecture" then ArchitectureScreen
    else DashboardScreen(role)
  }

  /** The home route and every unmatched location show the dashboard to every role. */
  lemma DashboardForEveryRole(path: string, role: UserRole)
    requires path == "/" || path !in {"/admissions", "/reports", "/admin-config", "/student-portal", "/architecture"}
    ensures Route(path, role) == DashboardScreen(role)
  {
  }

  /** The portal and blueprint routes do not look at the role at all. */
  lemma UnguardedRoutes(r1: UserRole, r2: UserRole)
    ensures Route("/student-portal", r1) == Route("/student-portal", r2)
    ensures Route("/architecture", r1) == Route("/architecture", r2)
  {
  }

  /** The redirect for students ends on a page in one step. */
  lemma RedirectLandsOnPortal(role: UserRole)
    requires Route("/reports", role).Redirect?
    ensures Route(Route("/reports", role).to, role) == StudentPortalScreen
  {
  }

  /** A student reaches none of the staff pages, whatever the location. */
  lemma StudentSeesNoStaffScreen(path: string)
    ensures Route(path, Student) !in {AdmissionsScreen, ReportsScreen, AdminConfigScreen}
  {
  }

  /** The initial role may open every page. */
  lemma InitialRoleUnrestricted(path: string)
    ensures !Route(path, InitialRole).AccessDenied? && !Route(path, InitialRole).Redirect?
  {
  }

  /** The sidebar and the route guards are independent: a head of department is offered
      the configuration entry yet denied it, and the Academics and User Mgmt entries lead
      to the dashboard because no route matches them. */
  lemma SidebarOffersUnroutedEntries()
    ensures Layout.NavItem("/admin-config", "Admin Config") in Layout.SidebarItems(Hod)
    ensures Route("/admin-config", Hod) == AccessDenied(AdminConfigDenied)
    ensures Layout.NavItem("/academics", "Academics") in Layout.SidebarItems(Teacher)
    ensures Route("/academics", Teacher) == DashboardScreen(Teacher)
    ensures Route("/users", Clerk) == DashboardScreen(Clerk)
  {
    assert Layout.ManagementItems[4] == Layout.NavItem("/admin-config", "Admin Config");
    assert Layout.ManagementItems[1] == Layout.NavItem("/academics", "Academics");
  }
}

=== FILE: dynamic_reports.dfy ===
/**
 The dynamic reports page: the mock student table, the field catalog, the
 prompt handler that asks the column negotiator for a new column list, the
 header label transform and the colour rules of the fee and attendance cells.
 React state updates are modelled as pure transitions of `ReportState`.
 */
module DynamicReports {
  import opened Types
  import opened Text
  import GeminiService

  // ----- Mock data -----

  const FirstNames: seq<string> := ["Aarav", "Vivaan", "Aditya", "Vihaan", "Arjun", "Sai", "Reyansh"]
  const LastNames: seq<string> := ["Sharma", "Patel", "Reddy", "Nair", "Singh", "Verma", "Gupta"]
  const Divisions: seq<string> := ["A", "B", "A", "C", "B"]
  const MockRowCount: nat := 15

  /** The two-digit tail of a mock phone number: a zero is prepended below ten. */
  function PhoneSuffix(i: nat): string
  {
    if i < 10 then "0" + Decimal(i) else Decimal(i)
  }

  /** Row `i` of the mock table. The roll number counts up from 101; a third of the rows
      owe the 5000 fee; attendance never drops below the 75 percent threshold; every
      text field is drawn from the fixed pools. */
  function MockStudent(i: nat): (r: Student)
    ensures r.rollNo == 101 + i
    ensures r.feeBalance == 5000 <==> i % 3 == 0
    ensures r.feeBalance == 0 <==> i % 3 != 0
    ensures 75 <= r.attendancePercentage < 95
    ensures r.firstName in FirstNames && r.lastName in LastNames && r.division in Divisions
    ensures r.standard in {"10th", "FYJC (11th)", "SYBSc"}
    ensures r.category in {"OBC", "Open"}
    ensures |r.id| >= 5 && r.id[..4] == "STU-"
  {
    StudentRow(
      "STU-" + Decimal(1000 + i),
      FirstNames[i % 7],
      LastNames[i % 7],
      if i < 5 then "10th" else if i < 10 then "FYJC (11th)" else "SYBSc",
      Divisions[i % 5],
      101 + i,
      if i % 3 == 0 then 5000 else 0,
      75 + i % 20,
      "parent." + Decimal(i) + "@example.com",
      Phone(i),
      if i % 4 == 0 then "OBC" else "Open",
      "2023-06-15",
      "2008-05-20",
      "Mumbai, Maharashtra")
  }

  /** `MOCK_STUDENTS`: fifteen generated rows. */
  const MockStudents: seq<Student> := seq(MockRowCount, i requires 0 <= i => MockStudent(i))

  lemma MockRow(i: nat)
    requires i < MockRowCount
    ensures |MockStudents| == MockRowCount
    ensures MockStudents[i] == MockStudent(i)
  {
  }

  /** Row identifiers are `STU-1000` to `STU-1014`: eight characters, pairwise distinct
      (they are the table's row keys), and roll numbers run from 101 upwards. */
  lemma MockIdentity(i: nat, j: nat)
    requires i < MockRowCount && j < MockRowCount
    ensures |MockStudents| == 15
    ensures MockStudents[i].id == "STU-" + Decimal(1000 + i)
    ensures |MockStudents[i].id| == 8
    ensures MockStudents[i].rollNo == 101 + i
    ensures i != j ==> MockStudents[i].id != MockStudents[j].id
    ensures i != j ==> MockStudents[i].rollNo != MockStudents[j].rollNo
  {
    MockRow(i);
    MockRow(j);
    RowId(i);
    RowId(j);
    DecimalInjective(1000 + i, 1000 + j);
  }

  lemma RowId(i: nat)
    requires i < MockRowCount
    ensures MockStudent(i).id[4..] == Decimal(1000 + i)
    ensures |MockStudent(i).id| == 8
  {
  }

  /** Every mock phone number is ten digits, `98765432` followed by the row index
      padded to two digits, so no two rows share one. */
  lemma MockPhones(i: nat, j: nat)
    requires i < MockRowCount && j < MockRowCount
    ensures |MockStudents[i].parentPhone| == 10
    ensures forall k :: 0 <= k < 10 ==> IsDigit(MockStudents[i].parentPhone[k])
    ensures MockStudents[i].parentPhone[..8] == "98765432"
    ensures ParseDecimal(MockStudents[i].parentPhone[8..]) == i
    ensures i != j ==> MockStudents[i].parentPhone != MockStudents[j].parentPhone
  {
    assert MockStudents[i].parentPhone == Phone(i);
    assert MockStudents[j].parentPhone == Phone(j);
    PhoneShape(i);
    PhoneShape(j);
  }

  function Phone(i: nat): string
  {
    "98765432" + PhoneSuffix(i)
  }

  lemma PhoneShape(i: nat)
    requires i < 100
    ensures |Phone(i)| == 10
    ensures forall k :: 0 <= k < 10 ==> IsDigit(Phone(i)[k])
    ensures Phone(i)[..8] == "98765432"
    ensures ParseDecimal(Phone(i)[8..]) == i
  {
    SuffixValue(i);
    var p := Phone(i);
    assert p[8..] == PhoneSuffix(i);
    forall k | 0 <= k < 10 ensures IsDigit(p[k]) {
      if k >= 8 {
        assert p[k] == PhoneSuffix(i)[k - 8];
      }
    }
  }

  lemma SuffixValue(i: nat)
    requires i < 100
    ensures |PhoneSuffix(i)| == 2
    ensures forall k :: 0 <= k < 2 ==> IsDigit(PhoneSuffix(i)[k])
    ensures ParseDecimal(PhoneSuffix(i)) == i
  {
    DecimalRoundTrip(i);
    if i < 10 {
      LeadingZero(Decimal(i));
    }
  }

  /** A row owes 5000 exactly when its index is a multiple of three, and nothing otherwise;
      the fee cell of such a row is the only one drawn red. */
  lemma MockFees(i: nat)
    requires i < MockRowCount
    ensures i % 3 == 0 ==> MockStudents[i].feeBalance == 5000
    ensures i % 3 != 0 ==> MockStudents[i].feeBalance == 0
    ensures FeeTone(MockStudents[i].feeBalance) == Red <==> i % 3 == 0
  {
    MockRow(i);
  }

  /** Mock attendance is `75 + i % 20`, so it lies in 75..89 and no attendance bar is red. */
  lemma MockAttendance(i: nat)
    requires i < MockRowCount
    ensures 75 <= MockStudents[i].attendancePercentage <= 89
    ensures AttendanceTone(MockStudents[i].attendancePercentage) == Green
  {
    MockRow(i);
    RowAttendance(i);
  }

  lemma RowAttendance(i: nat)
    requires i < MockRowCount
    ensures MockStudent(i).attendancePercentage == 75 + i
  {
    assert i % 20 == i;
  }

  // ----- The field catalog -----

  /** `ALL_FIELDS`, as written in the page. */
  const AllFieldNames: seq<string> :=
    ["id", "firstName", "lastName", "standard", "division", "rollNo",
     "feeBalance", "attendancePercentage", "parentEmail", "parentPhone",
     "category", "admissionDate", "dob", "address"]

  /** The initial `visibleColumns`. */
  const InitialVisibleColumns: seq<string> := ["firstName", "lastName", "standard", "feeBalance"]

  /** The catalog has fourteen distinct names, exactly the property names of the
      student record in declaration order, and the initial columns are drawn from it. */
  lemma CatalogMatchesStudent()
    ensures |AllFieldNames| == 14
    ensures forall i, j :: 0 <= i < j < |AllFieldNames| ==> AllFieldNames[i] != AllFieldNames[j]
    ensures |AllFieldNames| == |StudentFields|
    ensures forall i :: 0 <= i < |StudentFields| ==> AllFieldNames[i] == FieldName(StudentFields[i])
    ensures forall c :: c in InitialVisibleColumns ==> c in AllFieldNames
  {
    assert forall i :: 0 <= i < |StudentFields| ==> AllFieldNames[i] == FieldName(StudentFields[i]);
    forall i, j | 0 <= i < j < |AllFieldNames| ensures AllFieldNames[i] != AllFieldNames[j] {
      StudentFieldsComplete(StudentFields[i], StudentFields[j]);
    }
    assert AllFieldNames[1] == "firstName" && AllFieldNames[2] == "lastName";
    assert AllFieldNames[3] == "standard" && AllFieldNames[6] == "feeBalance";
  }

  /** A report column's key always names a catalog entry, and every student has a value under it. */
  lemma ReportColumnKeyIsField(c: ReportColumn, s: Student)
    ensures FieldName(c.key) in AllFieldNames
    ensures Cell(s, FieldName(c.key)) == Some(FieldValue(s, c.key))
  {
    StudentFieldsComplete(c.key, c.key);
    CatalogMatchesStudent();
    var k :| 0 <= k < |StudentFields| && StudentFields[k] == c.key;
    assert AllFieldNames[k] == FieldName(c.key);
  }

  // ----- Page state and the prompt handler -----

  datatype ReportState = ReportState(
    visibleColumns: seq<string>,
    prompt: string,
    isLoading: bool,
    isThinking: bool)

  const InitialReportState: ReportState := ReportState(InitialVisibleColumns, "", false, false)

  /** The state while the negotiator call is in flight. */
  function Pending(st: ReportState): (r: ReportState)
    ensures r.isLoading && r.isThinking
    ensures r.visibleColumns == st.visibleColumns && r.prompt == st.prompt
  {
    st.(isLoading := true, isThinking := true)
  }

  /** `handleAIPrompt` run to completion: an empty prompt changes nothing; otherwise the
      negotiator's answer replaces the columns, the flags drop and the prompt is cleared. */
  function HandleAIPrompt(
    st: ReportState, outcome: GeminiService.ServiceOutcome,
    parse: string -> GeminiService.ParseOutcome): (r: ReportState)
    ensures st.prompt == "" ==> r == st
    ensures st.prompt != "" ==>
              && r.visibleColumns == GeminiService.GenerateReportSchema(
                   st.visibleColumns, st.prompt, AllFieldNames, outcome, parse)
              && r.prompt == ""
              && !r.isLoading && !r.isThinking
  {
    if st.prompt == "" then st
    else
      var pending := Pending(st);
      var newColumns := GeminiService.GenerateReportSchema(
        pending.visibleColumns, pending.prompt, AllFieldNames, outcome, parse);
      pending.(visibleColumns := newColumns, isThinking := false, isLoading := false, prompt := "")
  }

  /** A failed call (or an empty or unparsable answer) leaves the columns as they were,
      though the prompt is still consumed. */
  lemma FailedPromptKeepsColumns(
    st: ReportState, outcome: GeminiService.ServiceOutcome,
    parse: string -> GeminiService.ParseOutcome)
    requires outcome.ServiceThrew?
             || GeminiService.OrEmpty(outcome.text) == ""
             || parse(outcome.text.value).ParseThrew?
    ensures HandleAIPrompt(st, outcome, parse).visibleColumns == st.visibleColumns
    ensures HandleAIPrompt(st, outcome, parse).prompt == ""
  {
  }

  /** Once handled, the prompt is empty, so handling again is a no-op whatever the service says. */
  lemma HandleAIPromptSettles(
    st: ReportState, o1: GeminiService.ServiceOutcome, p1: string -> GeminiService.ParseOutcome,
    o2: GeminiService.ServiceOutcome, p2: string -> GeminiService.ParseOutcome)
    ensures var once := HandleAIPrompt(st, o1, p1);
            HandleAIPrompt(once, o2, p2) == once
  {
  }

  /** The caption of the update button: one of two texts, "Processing..." exactly while a
      call is in flight. */
  function UpdateButtonLabel(st: ReportState): (s: string)
    ensures s == "Processing..." || s == "Update Report"
    ensures s == "Processing..." <==> st.isLoading
  {
    if st.isLoading then "Processing..." else "Update Report"
  }

  /** The button reads "Processing..." exactly while a call is in flight, and the page
      returns to "Update Report" when the handler finishes. */
  lemma UpdateButtonFollowsLoading(
    st: ReportState, outcome: GeminiService.ServiceOutcome,
    parse: string -> GeminiService.ParseOutcome)
    requires st.prompt != ""
    ensures UpdateButtonLabel(Pending(st)) == "Processing..."
    ensures UpdateButtonLabel(HandleAIPrompt(st, outcome, parse)) == "Update Report"
  {
  }

  /** The page opens idle on four catalog columns with an empty prompt, so pressing the
      button before typing anything leaves it as it was, whatever the service would say. */
  lemma InitialReportPage(
    outcome: GeminiService.ServiceOutcome, parse: string -> GeminiService.ParseOutcome)
    ensures |InitialReportState.visibleColumns| == 4
    ensures forall c :: c in InitialReportState.visibleColumns ==> c in AllFieldNames
    ensures UpdateButtonLabel(InitialReportState) == "Update Report"
    ensures HandleAIPrompt(InitialReportState, outcome, parse) == InitialReportState
  {
  }

  // ----- Header labels -----

  predicate IsAsciiUpper(c: char)
  {
    'A' <= c <= 'Z'
  }

  /** The character at `k`, if it is a capital, has a space right before it. */
  predicate CapitalPreceded(r: string, k: nat)
    requires k < |r|
  {
    IsAsciiUpper(r[k]) ==> k > 0 && r[k - 1] == ' '
  }

  /** The number of ASCII capitals in `s`. */
  function CapitalCount(s: string): nat
  {
    if s == [] then 0 else (if IsAsciiUpper(s[0]) then 1 else 0) + CapitalCount(s[1..])
  }

  /** `col.replace(/([A-Z])/g, ' $1')`: a space before every ASCII capital. */
  function SpaceBeforeCapitals(s: string): (r: string)
    ensures |r| == |s| + CapitalCount(s)
    ensures forall i :: 0 <= i < |r| ==> r[i] == ' ' || r[i] in s
    ensures forall i :: 0 <= i < |r| ==> CapitalPreceded(r, i)
  {
    if s == [] then []
    else
      var head := if IsAsciiUpper(s[0]) then [' ', s[0]] else [s[0]];
      var rest := SpaceBeforeCapitals(s[1..]);
      assert forall i :: 0 <= i < |rest| ==> rest[i] == ' ' || rest[i] in s by {
        forall i | 0 <= i < |rest| && rest[i] != ' ' ensures rest[i] in s {
          var k :| 0 <= k < |s[1..]| && s[1..][k] == rest[i];
          assert s[k + 1] == rest[i];
        }
      }
      var r := head + rest;
      assert forall i :: 0 <= i < |r| ==> CapitalPreceded(r, i) by {
        forall i | 0 <= i < |r| ensures CapitalPreceded(r, i) {
          if i >= |head| {
            assert r[i] == rest[i - |head|];
            assert CapitalPreceded(rest, i - |head|);
            if i - |head| > 0 {
              assert r[i - 1] == rest[i - |head| - 1];
            }
          }
        }
      }
      r
  }

  /** The column header text: capitals spaced apart, then trimmed. A label is never longer
      than the identifier plus one space per capital, neither starts nor ends with
      whitespace, and every capital after its first character has a space in front of it. */
  function HeaderLabel(col: string): (r: string)
    ensures |r| <= |col| + CapitalCount(col)
    ensures r == [] || (!IsWhitespace(r[0]) && !IsWhitespace(r[|r| - 1]))
    ensures forall k :: 0 < k < |r| ==> CapitalPreceded(r, k)
  {
    var spaced := SpaceBeforeCapitals(col);
    TrimKeepsCapitalSpacing(spaced);
    Trim(spaced)
  }

  /** Trimming keeps the space before every capital except possibly a leading one. */
  lemma TrimKeepsCapitalSpacing(x: string)
    requires forall i :: 0 <= i < |x| ==> CapitalPreceded(x, i)
    ensures forall k :: 0 < k < |Trim(x)| ==> CapitalPreceded(Trim(x), k)
  {
    TrimSlice(x);
    CapitalsInSlice(x, TrimFrom(x), TrimTo(x));
  }

  /** A slice keeps the spaces before its capitals, except possibly at its first position. */
  lemma CapitalsInSlice(x: string, a: nat, b: nat)
    requires a <= b <= |x|
    requires forall i :: 0 <= i < |x| ==> CapitalPreceded(x, i)
    ensures forall k :: 0 < k < b - a ==> CapitalPreceded(x[a..b], k)
  {
    var r := x[a..b];
    forall k | 0 < k < |r| ensures CapitalPreceded(r, k) {
      assert r[k] == x[a + k] && r[k - 1] == x[a + k - 1];
      assert CapitalPreceded(x, a + k);
    }
  }

  /** `s` with every space removed. */
  function RemoveSpaces(s: string): string
  {
    if s == [] then [] else (if s[0] == ' ' then [] else [s[0]]) + RemoveSpaces(s[1..])
  }

  lemma {:induction false} RemoveSpacesAppend(a: string, b: string)
    ensures RemoveSpaces(a + b) == RemoveSpaces(a) + RemoveSpaces(b)
  {
    if a == [] {
      assert a + b == b;
    } else {
      var head := if a[0] == ' ' then [] else [a[0]];
      assert (a + b)[0] == a[0];
      assert (a + b)[1..] == a[1..] + b;
      calc {
        RemoveSpaces(a + b);
        head + RemoveSpaces(a[1..] + b);
        { RemoveSpacesAppend(a[1..], b); }
        head + (RemoveSpaces(a[1..]) + RemoveSpaces(b));
        (head + RemoveSpaces(a[1..])) + RemoveSpaces(b);
      }
    }
  }

  lemma {:induction false} RemoveSpacesOfBlanks(a: string)
    requires forall i :: 0 <= i < |a| ==> a[i] == ' '
    ensures RemoveSpaces(a) == []
  {
    if a != [] {
      RemoveSpacesOfBlanks(a[1..]);
    }
  }

  lemma {:induction false} RemoveSpacesOfSpaceFree(a: string)
    requires ' ' !in a
    ensures RemoveSpaces(a) == a
  {
    if a != [] {
      assert a == [a[0]] + a[1..];
      RemoveSpacesOfSpaceFree(a[1..]);
    }
  }

  /** The spaces inserted before capitals are the only thing the transform adds. */
  lemma {:induction false} RemoveSpacesUndoesSpacing(s: string)
    ensures RemoveSpaces(SpaceBeforeCapitals(s)) == RemoveSpaces(s)
  {
    if s != [] {
      var head := if IsAsciiUpper(s[0]) then [' ', s[0]] else [s[0]];
      var rest := SpaceBeforeCapitals(s[1..]);
      assert SpaceBeforeCapitals(s) == head + rest;
      RemoveSpacesAppend(head, rest);
      RemoveSpacesUndoesSpacing(s[1..]);
      assert RemoveSpaces(head) == RemoveSpaces([s[0]]) by {
        if IsAsciiUpper(s[0]) {
          RemoveSpacesAppend([' '], [s[0]]);
          assert head == [' '] + [s[0]];
        }
      }
      assert s == [s[0]] + s[1..];
      RemoveSpacesAppend([s[0]], s[1..]);
    }
  }

  lemma SpacingAddsOnlySpaces(col: string)
    requires forall i :: 0 <= i < |col| ==> !IsWhitespace(col[i])
    ensures forall i :: 0 <= i < |SpaceBeforeCapitals(col)| && IsWhitespace(SpaceBeforeCapitals(col)[i])
                        ==> SpaceBeforeCapitals(col)[i] == ' '
  {
  }

  /** For an identifier free of whitespace, deleting the spaces of its header label gives the
      identifier back: the label only ever adds spaces. */
  lemma HeaderLabelRoundTrip(col: string)
    requires forall i :: 0 <= i < |col| ==> !IsWhitespace(col[i])
    ensures RemoveSpaces(HeaderLabel(col)) == col
  {
    var spaced := SpaceBeforeCapitals(col);
    var a := TrimFrom(spaced);
    var b := TrimTo(spaced);
    TrimmedBlanks(col);
    RemoveSpacesOfPadded(spaced, a, b);
    RemoveSpacesUndoesSpacing(col);
    assert ' ' !in col by {
      assert IsWhitespace(' ');
    }
    RemoveSpacesOfSpaceFree(col);
  }

  /** What trimming drops from the spaced form of a whitespace-free identifier is blanks. */
  lemma TrimmedBlanks(col: string)
    requires forall i :: 0 <= i < |col| ==> !IsWhitespace(col[i])
    ensures var spaced := SpaceBeforeCapitals(col);
            var a := TrimFrom(spaced);
            var b := TrimTo(spaced);
            && a <= b <= |spaced| && Trim(spaced) == spaced[a..b]
            && (forall i :: 0 <= i < a ==> spaced[i] == ' ')
            && (forall i :: b <= i < |spaced| ==> spaced[i] == ' ')
  {
    var spaced := SpaceBeforeCapitals(col);
    TrimSlice(spaced);
    SpacingAddsOnlySpaces(col);
  }

  /** Stripping blanks from both ends does not change what remains once spaces are removed. */
  lemma RemoveSpacesOfPadded(x: string, a: nat, b: nat)
    requires a <= b <= |x|
    requires forall i :: 0 <= i < a ==> x[i] == ' '
    requires forall i :: b <= i < |x| ==> x[i] == ' '
    ensures RemoveSpaces(x[a..b]) == RemoveSpaces(x)
  {
    assert x[a..b] == x[..b][a..];
    DropBlankPrefix(x[..b], a);
    DropBlankSuffix(x, b);
  }

  lemma DropBlankPrefix(y: string, a: nat)
    requires a <= |y|
    requires forall i :: 0 <= i < a ==> y[i] == ' '
    ensures RemoveSpaces(y[a..]) == RemoveSpaces(y)
  {
    assert y == y[..a] + y[a..];
    BlankPrefix(y[..a], y[a..]);
  }

  lemma DropBlankSuffix(y: string, b: nat)
    requires b <= |y|
    requires forall i :: b <= i < |y| ==> y[i] == ' '
    ensures RemoveSpaces(y[..b]) == RemoveSpaces(y)
  {
    assert y == y[..b] + y[b..];
    BlankSuffix(y[..b], y[b..]);
  }

  lemma BlankPrefix(p: string, m: string)
    requires forall i :: 0 <= i < |p| ==> p[i] == ' '
    ensures RemoveSpaces(p + m) == RemoveSpaces(m)
  {
    RemoveSpacesOfBlanks(p);
    RemoveSpacesAppend(p, m);
  }

  lemma BlankSuffix(m: string, q: string)
    requires forall i :: 0 <= i < |q| ==> q[i] == ' '
    ensures RemoveSpaces(m + q) == RemoveSpaces(m)
  {
    RemoveSpacesOfBlanks(q);
    RemoveSpacesAppend(m, q);
  }

  lemma {:induction false} SpacingWithoutCapitals(s: string)
    requires forall i :: 0 <= i < |s| ==> !IsAsciiUpper(s[i])
    ensures SpaceBeforeCapitals(s) == s
  {
    if s != [] {
      SpacingWithoutCapitals(s[1..]);
    }
  }

  /** An identifier without capitals and without surrounding whitespace (`id`, `dob`,
      `address`, ...) is its own header label. */
  lemma HeaderLabelOfLowercase(col: string)
    requires forall i :: 0 <= i < |col| ==> !IsAsciiUpper(col[i])
    requires col == [] || (!IsWhitespace(col[0]) && !IsWhitespace(col[|col| - 1]))
    ensures HeaderLabel(col) == col
  {
    SpacingWithoutCapitals(col);
    TrimUnpadded(col);
  }

  /** One character: a capital gains a space in front, anything else is kept as it is. */
  lemma SpacingOfChar(c: char)
    ensures SpaceBeforeCapitals([c]) == if IsAsciiUpper(c) then [' ', c] else [c]
  {
    assert [c][1..] == [];
  }

  lemma {:induction false} SpacingAppend(a: string, b: string)
    ensures SpaceBeforeCapitals(a + b) == SpaceBeforeCapitals(a) + SpaceBeforeCapitals(b)
  {
    if a == [] {
      assert a + b == b;
    } else {
      assert (a + b)[0] == a[0] && (a + b)[1..] == a[1..] + b;
      SpacingAppend(a[1..], b);
    }
  }

  /** An identifier without whitespace that does not start with a capital gets exactly one
      space per capital: its label is the full spaced form, nothing is trimmed. */
  lemma HeaderLabelLength(col: string)
    requires forall i :: 0 <= i < |col| ==> !IsWhitespace(col[i])
    requires col == [] || !IsAsciiUpper(col[0])
    ensures |HeaderLabel(col)| == |col| + CapitalCount(col)
    ensures HeaderLabel(col) == SpaceBeforeCapitals(col)
  {
    if col != [] {
      SpacedEnds(col);
      TrimUnpadded(SpaceBeforeCapitals(col));
    }
  }

  /** An identifier without whitespace that starts with a capital loses only the space put in
      front of that first capital: `"ID"` is labelled `"I D"`, not `" I D"`. */
  lemma HeaderLabelOfCapitalised(col: string)
    requires forall i :: 0 <= i < |col| ==> !IsWhitespace(col[i])
    requires col != [] && IsAsciiUpper(col[0])
    ensures |SpaceBeforeCapitals(col)| >= 2
    ensures HeaderLabel(col) == SpaceBeforeCapitals(col)[1..]
  {
    var spaced := SpaceBeforeCapitals(col);
    CapitalisedBounds(col);
    TrimSlice(spaced);
  }

  /** The spaced form of a capitalised identifier has exactly one leading space and no
      trailing whitespace. */
  lemma CapitalisedBounds(col: string)
    requires forall i :: 0 <= i < |col| ==> !IsWhitespace(col[i])
    requires col != [] && IsAsciiUpper(col[0])
    ensures var spaced := SpaceBeforeCapitals(col);
            |spaced| >= 2 && TrimFrom(spaced) == 1 && TrimTo(spaced) == |spaced|
  {
    var spaced := SpaceBeforeCapitals(col);
    assert col == [col[0]] + col[1..];
    SpacingAppend([col[0]], col[1..]);
    SpacingOfChar(col[0]);
    assert spaced[0] == ' ' && spaced[1] == col[0];
    SpacedEnds(col);
    assert LeadingWhitespace(spaced[1..]) == 0;
    assert TrailingWhitespace(spaced) == |spaced|;
  }

  /** The spaced form starts with the identifier's first character unless that is a capital,
      and always ends with its last character. */
  lemma SpacedEnds(col: string)
    requires col != []
    ensures var spaced := SpaceBeforeCapitals(col);
            && (!IsAsciiUpper(col[0]) ==> spaced[0] == col[0])
            && spaced[|spaced| - 1] == col[|col| - 1]
  {
    var n := |col| - 1;
    assert col == col[..n] + [col[n]];
    SpacingAppend(col[..n], [col[n]]);
    SpacingOfChar(col[n]);
  }

  /** One word followed by one capitalised word: the label separates them with a space. */
  lemma HeaderLabelOfTwoWords(w: string, c: char, v: string)
    requires IsAsciiUpper(c)
    requires w != [] && !IsWhitespace(w[0])
    requires forall i :: 0 <= i < |w| ==> !IsAsciiUpper(w[i])
    requires forall i :: 0 <= i < |v| ==> !IsAsciiUpper(v[i])
    requires v == [] || !IsWhitespace(v[|v| - 1])
    ensures HeaderLabel(w + [c] + v) == w + [' ', c] + v
  {
    SpacingAppend(w + [c], v);
    SpacingAppend(w, [c]);
    SpacingWithoutCapitals(w);
    SpacingWithoutCapitals(v);
    assert [c][1..] == [];
    assert SpaceBeforeCapitals([c]) == [' ', c];
    var r := w + [' ', c] + v;
    assert SpaceBeforeCapitals(w + [c] + v) == r;
    assert r[0] == w[0];
    assert r[|r| - 1] == if v == [] then c else v[|v| - 1];
    TrimUnpadded(r);
  }

  // ----- Cell colours -----

  datatype Tone = Red | Green

  /** The fee cell colour: red exactly for an outstanding balance. */
  function FeeTone(feeBalance: int): (t: Tone)
    ensures t == Red <==> feeBalance > 0
    ensures t == Green <==> feeBalance <= 0
  {
    if feeBalance > 0 then Red else Green
  }

  /** The attendance bar colour: red exactly below the 75 percent threshold. */
  function AttendanceTone(percentage: int): (t: Tone)
    ensures t == Red <==> percentage < 75
    ensures t == Green <==> percentage >= 75
  {
    if percentage < 75 then Red else Green
  }

  /** The thresholds at their boundaries: one rupee outstanding is red, a settled balance green;
      74 percent attendance is red, 75 percent green. */
  lemma ToneThresholds()
    ensures FeeTone(1) == Red && FeeTone(0) == Green
    ensures AttendanceTone(74) == Red && AttendanceTone(75) == Green
  {
  }
}

=== FILE: gemini_service.dfy ===
/**
 The client side of the generative-text service: locating the API key,
 building the client, the column negotiator behind the reports page and the
 requirements analyser.

 The service itself is not modelled. What one call produced is an input:
 either the call threw (transport failure, bad key, SDK error), or it
 returned a response whose `text` property may be absent. JSON parsing is
 likewise an input, a function from the response text to either a thrown
 `SyntaxError` or the parsed array of strings.
 */
module GeminiService {
  import opened Types

  /** The outcome of reading one environment location: the read threw, or it found a value (maybe none). */
  datatype Lookup = LookupThrew | LookupFound(value: Option<string>)

  /** JavaScript's `v || ''` on an optional string: absent and empty both give the empty string. */
  function OrEmpty(v: Option<string>): (s: string)
    ensures v.Some? ==> s == v.value
    ensures v.None? ==> s == ""
  {
    match v
    case Some(x) => x
    case None => ""
  }

  /** `getAPIKey`: tries `process.env`, then `window.process.env`, and never throws. */
  function GetApiKey(processEnv: Lookup, windowEnv: Lookup): (key: string)
    ensures processEnv.LookupFound? ==> key == OrEmpty(processEnv.value)
    ensures processEnv.LookupThrew? && windowEnv.LookupFound? ==> key == OrEmpty(windowEnv.value)
    ensures processEnv.LookupThrew? && windowEnv.LookupThrew? ==> key == ""
  {
    match processEnv
    case LookupFound(v) => OrEmpty(v)
    case LookupThrew =>
      match windowEnv
      case LookupFound(w) => OrEmpty(w)
      case LookupThrew => ""
  }

  /** The key is always either empty or a value one of the two locations actually held. */
  lemma ApiKeyProvenance(processEnv: Lookup, windowEnv: Lookup)
    ensures var key := GetApiKey(processEnv, windowEnv);
            key == ""
            || processEnv == LookupFound(Some(key))
            || (processEnv == LookupThrew && windowEnv == LookupFound(Some(key)))
  {
  }

  const MissingKey: string := "MISSING_KEY"

  /** The key `getAI` hands to the client constructor. */
  function ClientKey(apiKey: string): (k: string)
    ensures k != ""
    ensures apiKey != "" ==> k == apiKey
    ensures apiKey == "" ==> k == MissingKey
  {
    if apiKey == "" then MissingKey else apiKey
  }

  /** What one call to `generateContent` produced. */
  datatype ServiceOutcome = ServiceThrew | ServiceReturned(text: Option<string>)

  /** What `JSON.parse` produced on the response text. */
  datatype ParseOutcome = ParseThrew | ParsedArray(items: seq<string>)

  /** `generateReportSchema`: the new visible column list.
      The prompt and the catalog only shape the request sent to the service, whose
      answer is the `outcome` input; the function itself inspects neither. */
  function GenerateReportSchema(
    currentColumns: seq<string>, userPrompt: string, availableFields: seq<string>,
    outcome: ServiceOutcome, parse: string -> ParseOutcome): (r: seq<string>)
    ensures outcome.ServiceThrew? ==> r == currentColumns
    ensures outcome.ServiceReturned? && OrEmpty(outcome.text) == "" ==> r == currentColumns
    ensures outcome.ServiceReturned? && OrEmpty(outcome.text) != "" ==>
              match parse(outcome.text.value)
              case ParseThrew => r == currentColumns
              case ParsedArray(items) => r == items
  {
    match outcome
    case ServiceThrew => currentColumns
    case ServiceReturned(text) =>
      if OrEmpty(text) == "" then currentColumns
      else
        match parse(text.value)
        case ParseThrew => currentColumns
        case ParsedArray(items) => items
  }

  /** Every path returns a column list: either the current columns unchanged or,
      exactly when a non-empty text parsed, the parsed array. */
  lemma NegotiationTotal(
    currentColumns: seq<string>, userPrompt: string, availableFields: seq<string>,
    outcome: ServiceOutcome, parse: string -> ParseOutcome)
    ensures var r := GenerateReportSchema(currentColumns, userPrompt, availableFields, outcome, parse);
            r == currentColumns
            || (outcome.ServiceReturned? && outcome.text.Some? && outcome.text.value != ""
                && parse(outcome.text.value) == ParsedArray(r))
  {
  }

  /** The result does not depend on the catalog: no entry is ever filtered against it. */
  lemma NegotiationIgnoresCatalog(
    currentColumns: seq<string>, userPrompt: string, catalog1: seq<string>, catalog2: seq<string>,
    outcome: ServiceOutcome, parse: string -> ParseOutcome)
    ensures GenerateReportSchema(currentColumns, userPrompt, catalog1, outcome, parse)
         == GenerateReportSchema(currentColumns, userPrompt, catalog2, outcome, parse)
  {
  }

  /** A parsed answer is adopted verbatim even when it repeats a name and names a
      field outside the catalog. */
  lemma NegotiationAdoptsUnknownAndDuplicateNames(parse: string -> ParseOutcome)
    requires parse("[\"firstName\",\"firstName\",\"bogusField\"]")
             == ParsedArray(["firstName", "firstName", "bogusField"])
    ensures var r := GenerateReportSchema(["firstName"], "add bogus", ["firstName", "lastName"],
                                          ServiceReturned(Some("[\"firstName\",\"firstName\",\"bogusField\"]")), parse);
            r == ["firstName", "firstName", "bogusField"]
            && "bogusField" !in ["firstName", "lastName"]
            && r[0] == r[1]
  {
  }

  /** An empty array in the answer empties the column list: there is no fallback for an
      empty result. */
  lemma NegotiationAdoptsEmptyAnswer(currentColumns: seq<string>, parse: string -> ParseOutcome)
    requires parse("[]") == ParsedArray([])
    ensures GenerateReportSchema(currentColumns, "clear", [], ServiceReturned(Some("[]")), parse) == []
  {
  }

  const AnalysisFailureMessage: string := "Unable to analyze requirements at this time."

  /** `analyzeRequirements`: the response text as returned (possibly absent), or the
      fixed apology when the call throws. */
  function AnalyzeRequirements(orgDescription: string, outcome: ServiceOutcome): (r: Option<string>)
    ensures outcome.ServiceThrew? ==> r == Some(AnalysisFailureMessage)
    ensures outcome.ServiceReturned? ==> r == outcome.text
  {
    match outcome
    case ServiceThrew => Some(AnalysisFailureMessage)
    case ServiceReturned(text) => text
  }
}

=== FILE: layout.dfy ===
/**
 The application shell: the sidebar entries each role sees, the exact-match
 test that highlights the entry for the current location, and the role
 selector.
 */
module Layout {
  import opened Types

  datatype NavItem = NavItem(path: string, labelText: string)

  /** `isActive`: an entry is highlighted when the location is exactly its path, character
      for character; a prefix, an extension or a change of case does not match. */
  function IsActive(pathname: string, path: string): (b: bool)
    ensures b <==> |pathname| == |path| && forall i :: 0 <= i < |path| ==> pathname[i] == path[i]
  {
    pathname == path
  }

  const DashboardItem: NavItem := NavItem("/", "Dashboard")
  const PortalItem: NavItem := NavItem("/student-portal", "My Portal")
  const BlueprintItem: NavItem := NavItem("/architecture", "System Blueprint")

  /** The five entries shown to every role except students. */
  const ManagementItems: seq<NavItem> := [
    NavItem("/admissions", "Admissions"),
    NavItem("/academics", "Academics"),
    NavItem("/reports", "Smart Reports"),
    NavItem("/users", "User Mgmt"),
    NavItem("/admin-config", "Admin Config")
  ]

  /** The sidebar, top to bottom, for a role. */
  function SidebarItems(role: UserRole): (r: seq<NavItem>)
    ensures |r| >= 2 && r[0] == DashboardItem && r[|r| - 1] == BlueprintItem
    ensures (forall m :: m in ManagementItems ==> m in r) <==> !role.Student?
    ensures role.Student? ==> forall m :: m in ManagementItems ==> m !in r
    ensures PortalItem in r <==> role.Student?
    ensures |r| == if role.Student? then 3 else 7
    ensures !role.Student? ==> r[1..6] == ManagementItems
    ensures role.Student? ==> r[1] == PortalItem
  {
    var staff := if !role.Student? then ManagementItems else [];
    var portal := if role.Student? then [PortalItem] else [];
    var r := [DashboardItem] + staff + portal + [BlueprintItem];
    forall m | m in staff ensures m in r {
      var k :| 0 <= k < |staff| && staff[k] == m;
      assert r[k + 1] == m;
    }
    assert role.Student? ==> ManagementItems[0] !in r;
    assert !role.Student? ==> r[1..6] == staff;
    r
  }

  /** Exactly one of the two role groups is shown: the management block or the portal entry. */
  lemma OneRoleGroup(role: UserRole)
    ensures (ManagementItems[0] in SidebarItems(role)) != (PortalItem in SidebarItems(role))
  {
  }

  /** No two sidebar entries share a path, so at most one is highlighted at a time, and an
      entry is highlighted only on its own exact path. */
  lemma AtMostOneActive(role: UserRole, pathname: string, i: int, j: int)
    requires 0 <= i < |SidebarItems(role)| && 0 <= j < |SidebarItems(role)|
    requires IsActive(pathname, SidebarItems(role)[i].path)
    requires IsActive(pathname, SidebarItems(role)[j].path)
    ensures i == j
    ensures pathname == SidebarItems(role)[i].path
  {
  }

  /** A location with a trailing slash highlights nothing: matching is exact. */
  lemma ActiveIsExact(role: UserRole, i: int)
    requires 0 <= i < |SidebarItems(role)|
    ensures IsActive(SidebarItems(role)[i].path, SidebarItems(role)[i].path)
    ensures !IsActive(SidebarItems(role)[i].path + "/", SidebarItems(role)[i].path)
  {
    var p := SidebarItems(role)[i].path;
    assert |p + "/"| != |p|;
  }

  /** The options of the role selector: every enumeration value, in order. */
  const RoleOptions: seq<string> :=
    seq(|AllRoles|, i requires 0 <= i < |AllRoles| => RoleDisplay(AllRoles[i]))

  /** Every role is offered once and choosing its option selects exactly that role. */
  lemma RoleSelectorOffersEveryRole(role: UserRole)
    ensures RoleDisplay(role) in RoleOptions
    ensures |RoleOptions| == 6
    ensures forall i, j :: 0 <= i < j < |RoleOptions| ==> RoleOptions[i] != RoleOptions[j]
    ensures forall i :: 0 <= i < |RoleOptions| ==> RoleFromDisplay(RoleOptions[i]) == Some(AllRoles[i])
  {
    AllRolesComplete(role);
    var k :| 0 <= k < |AllRoles| && AllRoles[k] == role;
    assert RoleOptions[k] == RoleDisplay(role);
    forall i | 0 <= i < |RoleOptions| ensures RoleFromDisplay(RoleOptions[i]) == Some(AllRoles[i]) {
      RoleDisplayRoundTrip(AllRoles[i], AllRoles[i]);
    }
    forall i, j | 0 <= i < j < |RoleOptions| ensures RoleOptions[i] != RoleOptions[j] {
      RoleDisplayRoundTrip(AllRoles[i], AllRoles[j]);
    }
  }
}

=== FILE: text.dfy ===
/**
 The JavaScript string operations the pages rely on: writing a non-negative
 integer in decimal (template-literal interpolation and `String(n)`) and
 `String.prototype.trim`.
 */
module Text {

  predicate IsDigit(c: char)
  {
    '0' <= c <= '9'
  }

  function DigitChar(d: nat): (c: char)
    requires d < 10
    ensures IsDigit(c)
    ensures c as int == '0' as int + d
  {
    "0123456789"[d]
  }

  function DigitValue(c: char): nat
  {
    if IsDigit(c) then (c as int - '0' as int) else 0
  }

  /** The decimal numeral of `n`, most significant digit first and without leading zeros. */
  function Decimal(n: nat): (s: string)
    ensures |s| >= 1
    ensures forall i :: 0 <= i < |s| ==> IsDigit(s[i])
    ensures n < 10 ==> |s| == 1
    ensures 10 <= n < 100 ==> |s| == 2
    ensures 100 <= n < 1000 ==> |s| == 3
    ensures 1000 <= n < 10000 ==> |s| == 4
  {
    if n < 10 then [DigitChar(n)] else Decimal(n / 10) + [DigitChar(n % 10)]
  }

  /** The value of a string of digits, read most significant digit first. */
  function ParseDecimal(s: string): nat
  {
    if s == [] then 0 else ParseDecimal(s[..|s| - 1]) * 10 + DigitValue(s[|s| - 1])
  }

  /** Reading a numeral back gives the number it was written from. */
  lemma {:induction false} DecimalRoundTrip(n: nat)
    ensures ParseDecimal(Decimal(n)) == n
  {
    var s := Decimal(n);
    if n >= 10 {
      assert s[..|s| - 1] == Decimal(n / 10);
      DecimalRoundTrip(n / 10);
    }
  }

  /** A leading zero does not change the value of a numeral. */
  lemma {:induction false} LeadingZero(s: string)
    ensures ParseDecimal("0" + s) == ParseDecimal(s)
  {
    if s != [] {
      var t := "0" + s;
      assert t[..|t| - 1] == "0" + s[..|s| - 1];
      LeadingZero(s[..|s| - 1]);
    }
  }

  /** A numeral of more than one digit does not start with a zero. */
  lemma {:induction false} DecimalNoLeadingZero(n: nat)
    ensures |Decimal(n)| > 1 ==> Decimal(n)[0] != '0'
  {
    if n >= 10 {
      assert Decimal(n)[0] == Decimal(n / 10)[0];
      DecimalNoLeadingZero(n / 10);
    }
  }

  /** Different numbers are written differently. */
  lemma DecimalInjective(m: nat, n: nat)
    ensures Decimal(m) == Decimal(n) ==> m == n
  {
    DecimalRoundTrip(m);
    DecimalRoundTrip(n);
  }

  /** The characters JavaScript's `trim` removes: WhiteSpace and LineTerminator
      of section 12.2 and 12.3 of ECMA-262. */
  predicate IsWhitespace(c: char)
  {
    || c == '\t' || c == '\n' || c == '\U{B}' || c == '\U{C}' || c == '\r'
    || c == ' ' || c == '\U{A0}' || c == '\U{1680}'
    || ('\U{2000}' <= c <= '\U{200A}')
    || c == '\U{2028}' || c == '\U{2029}' || c == '\U{202F}' || c == '\U{205F}'
    || c == '\U{3000}' || c == '\U{FEFF}'
  }

  /** The length of the leading run of whitespace. */
  function LeadingWhitespace(s: string): (n: nat)
    ensures n <= |s|
    ensures forall i :: 0 <= i < n ==> IsWhitespace(s[i])
    ensures n < |s| ==> !IsWhitespace(s[n])
  {
    if s != [] && IsWhitespace(s[0]) then 1 + LeadingWhitespace(s[1..]) else 0
  }

  /** Where the trailing run of whitespace begins. */
  function TrailingWhitespace(s: string): (m: nat)
    ensures m <= |s|
    ensures forall i :: m <= i < |s| ==> IsWhitespace(s[i])
    ensures m > 0 ==> !IsWhitespace(s[m - 1])
  {
    if s != [] && IsWhitespace(s[|s| - 1]) then TrailingWhitespace(s[..|s| - 1]) else |s|
  }

  /** Where the trimmed text starts and ends; an all-whitespace string trims to nothing. */
  function TrimFrom(s: string): nat
  {
    LeadingWhitespace(s)
  }

  function TrimTo(s: string): nat
  {
    if LeadingWhitespace(s) < TrailingWhitespace(s) then TrailingWhitespace(s) else LeadingWhitespace(s)
  }

  /** `s.trim()`: the part of `s` between its leading and its trailing whitespace. The result
      is no longer than `s` and has no whitespace at either end; a string without whitespace
      at its ends is kept whole, and an all-whitespace string trims to nothing. */
  function Trim(s: string): (r: string)
    ensures TrimFrom(s) + |r| == TrimTo(s) <= |s|
    ensures s == s[..TrimFrom(s)] + r + s[TrimTo(s)..]
    ensures forall i :: 0 <= i < TrimFrom(s) ==> IsWhitespace(s[i])
    ensures forall i :: TrimTo(s) <= i < |s| ==> IsWhitespace(s[i])
    ensures |r| <= |s|
    ensures r == [] || (!IsWhitespace(r[0]) && !IsWhitespace(r[|r| - 1]))
    ensures (s == [] || (!IsWhitespace(s[0]) && !IsWhitespace(s[|s| - 1]))) ==> r == s
    ensures (forall i :: 0 <= i < |s| ==> IsWhitespace(s[i])) ==> r == []
  {
    TrimBounds(s);
    s[TrimFrom(s)..TrimTo(s)]
  }

  /** Trim's contract, stated about the slice between the trim bounds. */
  lemma TrimBounds(s: string)
    ensures TrimFrom(s) <= TrimTo(s) <= |s|
    ensures var r := s[TrimFrom(s)..TrimTo(s)];
            && s == s[..TrimFrom(s)] + r + s[TrimTo(s)..]
            && (forall i :: 0 <= i < TrimFrom(s) ==> IsWhitespace(s[i]))
            && (forall i :: TrimTo(s) <= i < |s| ==> IsWhitespace(s[i]))
    ensures TrimFrom(s) < TrimTo(s) ==> !IsWhitespace(s[TrimFrom(s)]) && !IsWhitespace(s[TrimTo(s) - 1])
    ensures (s == [] || (!IsWhitespace(s[0]) && !IsWhitespace(s[|s| - 1]))) ==> TrimFrom(s) == 0 && TrimTo(s) == |s|
    ensures (forall i :: 0 <= i < |s| ==> IsWhitespace(s[i])) ==> TrimFrom(s) == TrimTo(s)
  {
    var a, b := TrimFrom(s), TrimTo(s);
    assert s == s[..a] + s[a..b] + s[b..];
  }

  /** What trim drops is whitespace, and what it keeps neither starts nor ends with whitespace. */
  lemma TrimSlice(s: string)
    ensures TrimFrom(s) <= TrimTo(s) <= |s|
    ensures Trim(s) == s[TrimFrom(s)..TrimTo(s)]
    ensures forall i :: 0 <= i < TrimFrom(s) ==> IsWhitespace(s[i])
    ensures forall i :: TrimTo(s) <= i < |s| ==> IsWhitespace(s[i])
    ensures Trim(s) == [] || (!IsWhitespace(Trim(s)[0]) && !IsWhitespace(Trim(s)[|Trim(s)| - 1]))
  {
  }

  /** A string that neither starts nor ends with whitespace is its own trim. */
  lemma TrimUnpadded(s: string)
    requires s == [] || (!IsWhitespace(s[0]) && !IsWhitespace(s[|s| - 1]))
    ensures Trim(s) == s
  {
  }
}

=== FILE: types.dfy ===
/**
 The shared data model of the EduSphere front end: the simulated user roles,
 the student record shown in reports, report columns and feature flags.
 */
module Types {

  datatype Option<+T> = None | Some(value: T)

  /** The six simulated roles, in declaration order. */
  datatype UserRole = SuperAdmin | Principal | Hod | Teacher | Clerk | Student

  /** The string value each enum member carries; it is what the role selector shows and sends back. */
  function RoleDisplay(r: UserRole): string
  {
    match r
    case SuperAdmin => "Super Admin"
    case Principal => "Principal"
    case Hod => "HOD"
    case Teacher => "Teacher"
    case Clerk => "Admin Staff (Clerk)"
    case Student => "Student"
  }

  /** Every role, in the order the enumeration declares (and enumerates) them. */
  const AllRoles: seq<UserRole> := [SuperAdmin, Principal, Hod, Teacher, Clerk, Student]

  /** Reads a selector value back as a role; the inverse of RoleDisplay. */
  function RoleFromDisplay(s: string): (r: Option<UserRole>)
    ensures r.Some? ==> RoleDisplay(r.value) == s
  {
    if s == "Super Admin" then Some(SuperAdmin)
    else if s == "Principal" then Some(Principal)
    else if s == "HOD" then Some(Hod)
    else if s == "Teacher" then Some(Teacher)
    else if s == "Admin Staff (Clerk)" then Some(Clerk)
    else if s == "Student" then Some(Student)
    else None
  }

  /** The enumeration has exactly six members, listed once each. */
  lemma AllRolesComplete(r: UserRole)
    ensures r in AllRoles
    ensures |AllRoles| == 6
    ensures forall i, j :: 0 <= i < j < |AllRoles| ==> AllRoles[i] != AllRoles[j]
  {
  }

  /** Display strings are pairwise distinct, and reading one back gives the role. */
  lemma RoleDisplayRoundTrip(r: UserRole, q: UserRole)
    ensures RoleFromDisplay(RoleDisplay(r)) == Some(r)
    ensures r != q ==> RoleDisplay(r) != RoleDisplay(q)
  {
  }

  /** The fourteen properties of a student record, in declaration order. */
  datatype StudentField =
    | Id | FirstName | LastName | Standard | Division | RollNo | FeeBalance
    | AttendancePercentage | ParentEmail | ParentPhone | Category | AdmissionDate
    | Dob | Address

  /** The property name of each field, as it is spelled in the record type. */
  function FieldName(f: StudentField): string
  {
    match f
    case Id => "id"
    case FirstName => "firstName"
    case LastName => "lastName"
    case Standard => "standard"
    case Division => "division"
    case RollNo => "rollNo"
    case FeeBalance => "feeBalance"
    case AttendancePercentage => "attendancePercentage"
    case ParentEmail => "parentEmail"
    case ParentPhone => "parentPhone"
    case Category => "category"
    case AdmissionDate => "admissionDate"
    case Dob => "dob"
    case Address => "address"
  }

  /** The record's fields in declaration order. */
  const StudentFields: seq<StudentField> :=
    [Id, FirstName, LastName, Standard, Division, RollNo, FeeBalance,
     AttendancePercentage, ParentEmail, ParentPhone, Category, AdmissionDate,
     Dob, Address]

  /** Looks a property name up on the record type: `keyof Student` as a partial map from strings. */
  function FieldOf(name: string): (r: Option<StudentField>)
    ensures r.Some? ==> FieldName(r.value) == name
  {
    if name == "id" then Some(Id)
    else if name == "firstName" then Some(FirstName)
    else if name == "lastName" then Some(LastName)
    else if name == "standard" then Some(Standard)
    else if name == "division" then Some(Division)
    else if name == "rollNo" then Some(RollNo)
    else if name == "feeBalance" then Some(FeeBalance)
    else if name == "attendancePercentage" then Some(AttendancePercentage)
    else if name == "parentEmail" then Some(ParentEmail)
    else if name == "parentPhone" then Some(ParentPhone)
    else if name == "category" then Some(Category)
    else if name == "admissionDate" then Some(AdmissionDate)
    else if name == "dob" then Some(Dob)
    else if name == "address" then Some(Address)
    else None
  }

  /** The position of a field in declaration order. */
  function FieldIndex(f: StudentField): (k: nat)
    ensures k < |StudentFields| && StudentFields[k] == f
  {
    match f
    case Id => 0
    case FirstName => 1
    case LastName => 2
    case Standard => 3
    case Division => 4
    case RollNo => 5
    case FeeBalance => 6
    case AttendancePercentage => 7
    case ParentEmail => 8
    case ParentPhone => 9
    case Category => 10
    case AdmissionDate => 11
    case Dob => 12
    case Address => 13
  }

  /** The record has exactly fourteen fields, each listed once, and each name resolves back to its field. */
  lemma StudentFieldsComplete(f: StudentField, g: StudentField)
    ensures f in StudentFields
    ensures |StudentFields| == 14
    ensures forall i, j :: 0 <= i < j < |StudentFields| ==> StudentFields[i] != StudentFields[j]
    ensures FieldOf(FieldName(f)) == Some(f)
    ensures f != g ==> FieldName(f) != FieldName(g)
  {
    StudentFieldsDistinct();
    FieldNameResolves(f);
    FieldNameResolves(g);
  }

  lemma StudentFieldsDistinct()
    ensures |StudentFields| == 14
    ensures forall i, j :: 0 <= i < j < |StudentFields| ==> StudentFields[i] != StudentFields[j]
  {
    forall i, j | 0 <= i < j < |StudentFields| ensures StudentFields[i] != StudentFields[j] {
      FieldIndexOfListed(i);
      FieldIndexOfListed(j);
    }
  }

  lemma FieldIndexOfListed(i: nat)
    requires i < |StudentFields|
    ensures FieldIndex(StudentFields[i]) == i
  {
  }

  lemma FieldNameResolves(f: StudentField)
    ensures FieldOf(FieldName(f)) == Some(f)
  {
    match f
    case Id =>
    case FirstName =>
    case LastName =>
    case Standard =>
    case Division =>
    case RollNo =>
    case FeeBalance =>
    case AttendancePercentage =>
    case ParentEmail =>
    case ParentPhone =>
    case Category =>
    case AdmissionDate =>
    case Dob =>
    case Address =>
  }

  /** A student row; TypeScript numbers are modelled as integers. */
  datatype Student = StudentRow(
    id: string,
    firstName: string,
    lastName: string,
    standard: string,
    division: string,
    rollNo: int,
    feeBalance: int,
    attendancePercentage: int,
    parentEmail: string,
    parentPhone: string,
    category: string,
    admissionDate: string,
    dob: string,
    address: string)

  /** What a table cell can hold: a string or a number property. */
  datatype CellValue = Text(s: string) | Number(n: int)

  /** The value of one property of a student. */
  function FieldValue(s: Student, f: StudentField): CellValue
  {
    match f
    case Id => Text(s.id)
    case FirstName => Text(s.firstName)
    case LastName => Text(s.lastName)
    case Standard => Text(s.standard)
    case Division => Text(s.division)
    case RollNo => Number(s.rollNo)
    case FeeBalance => Number(s.feeBalance)
    case AttendancePercentage => Number(s.attendancePercentage)
    case ParentEmail => Text(s.parentEmail)
    case ParentPhone => Text(s.parentPhone)
    case Category => Text(s.category)
    case AdmissionDate => Text(s.admissionDate)
    case Dob => Text(s.dob)
    case Address => Text(s.address)
  }

  /** `student[col]` for a column name of any kind: a known property gives its value, any other name nothing. */
  function Cell(s: Student, col: string): (r: Option<CellValue>)
    ensures r.None? <==> (forall f: StudentField :: FieldName(f) != col)
    ensures forall f: StudentField :: FieldName(f) == col ==> r == Some(FieldValue(s, f))
  {
    StudentFieldNamesResolve();
    match FieldOf(col)
    case Some(f) => Some(FieldValue(s, f))
    case None => None
  }

  lemma StudentFieldNamesResolve()
    ensures forall f: StudentField :: FieldOf(FieldName(f)) == Some(f)
  {
    forall f: StudentField ensures FieldOf(FieldName(f)) == Some(f) {
      StudentFieldsComplete(f, f);
    }
  }

  /** A report column description; its key is a property of the student record by construction.
      (`label` is a Dafny keyword, so the label property is called `labelText` here.) */
  datatype ReportColumn = ReportColumn(key: StudentField, labelText: string, visible: bool)

  /** The reach of a feature flag. */
  datatype Scope = Global | RoleScope | Dept

  function ScopeName(s: Scope): string
  {
    match s
    case Global => "GLOBAL"
    case RoleScope => "ROLE"
    case Dept => "DEPT"
  }

  /** A feature switch; `affectedRoles` is an optional property. */
  datatype FeatureFlag = FeatureFlag(
    id: string,
    key: string,
    labelText: string,
    description: string,
    isEnabled: bool,
    scope: Scope,
    affectedRoles: Option<seq<UserRole>>)

  /** A flag's scope is one of the three literal values, and the three are distinct. */
  lemma ScopeIsOneOfThree(s: Scope)
    ensures ScopeName(s) in ["GLOBAL", "ROLE", "DEPT"]
    ensures ScopeName(Global) != ScopeName(RoleScope) && ScopeName(RoleScope) != ScopeName(Dept)
            && ScopeName(Global) != ScopeName(Dept)
  {
  }
}
